=== FILE: README.md ===
# RXPaths path codec, modelled in Dafny

This project models the binary path codec of RXPaths (`RXPaths/RXPathSerialization.h`).
A path is a sequence of drawing elements: move, line, quadratic curve, cubic curve and close.
`RXPathSerializer` appends one record per element to caller-owned data.
`RXPathDeserializer` scans such data front to back and calls one optional handler block per record.
It reports malformed data through `-deserializeWithError:`.

Modules, one per part of the codec:

- `elements.dfy` (`PathElements`): the five element types. Each has an ASCII tag byte (`'M'`, `'L'`, `'Q'`, `'C'`, `'Z'`) and a number of points (1, 1, 2, 3, 0). This module also defines the order in which the handlers receive the points, and the uniform `(type, points)` handler shape.
- `wire_format.dfy` (`WireFormat`): the record layout (tag byte, then each point as x then y), the error value (code `RXPathSerializationInvalidDataErrorCode` = 1 plus the byte index stored under `RXPathSerializationIndexErrorKey`), and reading a single record.
- `serializer.dfy` (`PathSerializer`): the five `serialize…` calls, as pure functions from the serializer's data to the extended data.
- `deserializer.dfy` (`PathDeserializer`): `Scan`/`Decode`, the reference decoder, and `DeserializeWithError`, the cursor loop that drives the handlers. It is proved to agree with the reference decoder.
- `outcomes.dfy` (`Outcomes`): `Option` for a byte that may or may not be a tag, and `Result` for a read or decode that yields a value or stops with an error.
- `properties.dfy` (`PathCodecProperties`): round trip, the characterization of well-formed data, and the two error cases.

Modelling choices:

- A coordinate is an opaque 8-byte chunk (`CGFloat` is a double on 64-bit platforms). Round trips are therefore bit-exact, and floating point and byte order never enter the model.
- The `NSMutableData` a serializer wraps is a value. Each serialize call returns the serializer whose data is the old data plus one record.
- A deserializer's handler properties are five booleans: set or nil. A nil handler observes nothing, but its record is still consumed; this is an assumption, because the header only declares the handlers optional. `DeserializeWithError` returns the sequence of handler calls it made. On an error, the calls made before it are not retracted.
- The implementation file is not part of this model; only the header is. So three wire-level details are inferred rather than read from code:
  - points are written in the order the handlers receive them: control point(s) first, end point last;
  - a record whose payload runs past the end of the data fails at the offset of its tag byte;
  - a byte that is not a tag fails at its own offset.

## Model

| member | source | states |
|---|---|---|
| PathElements.TypeOfTag | RXPaths/RXPathSerialization.h:7-13 | a byte announces an element type exactly when it is one of the five tags 'M','L','Q','C','Z', and then it is the tag of the type it announces |
| PathCodecProperties.TagsDistinct | RXPaths/RXPathSerialization.h:7-13 | the five tags are pairwise distinct, and each tag decodes back to its own element type |
| PathElements.Points | RXPaths/RXPathSerialization.h:23-27 | an element's handler arguments number 1 for move and line, 2 for a quadratic curve, 3 for a cubic curve and 0 for close, in handler order; together with the type they determine the element |
| PathElements.MakeElement | RXPaths/RXPathSerialization.h:23-27 | building an element from a type and that type's number of points gives an element of that type |
| PathElements.PointsOfMakeElement | RXPaths/RXPathSerialization.h:23-27 | the points handed to a handler are exactly the points the element was built from |
| PathElements.ElementHandlerArguments | RXPaths/RXPathSerialization.h:22 | the uniform handler's type byte is the element's tag, and its point array has the element's point count |
| PathElements.ElementFromHandlerArguments | RXPaths/RXPathSerialization.h:22 | uniform handler arguments name an element exactly when the byte is a tag and the array has that tag's point count |
| PathElements.HandlerArgumentsRoundTrip | RXPaths/RXPathSerialization.h:22-27 | the uniform handler and the per-type handlers carry the same information, in both directions |
| WireFormat.Record | RXPaths/RXPathSerialization.h:33-37 | a record is 1 + 16 × (point count) bytes long and begins with the element's tag byte |
| WireFormat.PointRoundTrip | RXPaths/RXPathSerialization.h:33-51 | a point written as its x coordinate then its y coordinate reads back as the same point, bit for bit |
| WireFormat.PointsBytes | RXPaths/RXPathSerialization.h:33-37 | n points occupy exactly 16·n bytes |
| WireFormat.PointsBytesSingle | RXPaths/RXPathSerialization.h:33-37 | a single point occupies exactly its own 16-byte image |
| WireFormat.PointsBytesAppend | RXPaths/RXPathSerialization.h:33-37 | the bytes of two runs of points are those of the first run followed by those of the second, so each point sits in its own 16-byte slot, in order |
| WireFormat.ReadPoint | RXPaths/RXPathSerialization.h:51 | the point read at an offset is the one whose x-then-y bytes occupy the 16 bytes there |
| WireFormat.ReadPoints | RXPaths/RXPathSerialization.h:51 | reading n points at an offset yields n points whose bytes are exactly the 16·n bytes there |
| WireFormat.PointsBytesInjective | RXPaths/RXPathSerialization.h:33-37 | equal byte images mean equal points, so written coordinates are read back bit for bit |
| WireFormat.ReadRecord | RXPaths/RXPathSerialization.h:16-20 | reading the record at an offset succeeds exactly when the byte there is a tag and the whole payload is present, with the cursor then just past the record; otherwise it fails with code 1 and that offset as the index |
| WireFormat.ReadRecordSound | RXPaths/RXPathSerialization.h:51 | a record read successfully is the element whose encoding occupies the bytes consumed |
| WireFormat.ReadRecordOfRecord | RXPaths/RXPathSerialization.h:33-37 | a record laid down anywhere in the data reads back as the same element, with the cursor just past it |
| PathSerializer.SerializeMoveToPoint | RXPaths/RXPathSerialization.h:33 | appends 17 bytes and leaves the earlier bytes alone; the new record reads back as a move to the given point |
| PathSerializer.SerializeLineToPoint | RXPaths/RXPathSerialization.h:34 | appends 17 bytes and leaves the earlier bytes alone; the new record reads back as a line to the given point |
| PathSerializer.SerializeQuadraticCurveToPoint | RXPaths/RXPathSerialization.h:35 | appends 33 bytes and leaves the earlier bytes alone; the record reads back with the control point in the handler's first slot and the end point, passed first, in its last |
| PathSerializer.SerializeCubicCurveToPoint | RXPaths/RXPathSerialization.h:36 | appends 49 bytes and leaves the earlier bytes alone; the record reads back with both control points first, in order, and the end point, passed first, last |
| PathSerializer.SerializeCloseSubpath | RXPaths/RXPathSerialization.h:37 | appends exactly the 1-byte close record and leaves the earlier bytes alone |
| PathSerializer.SerializeElement | RXPaths/RXPathSerialization.h:33-37 | whichever serialize call a producer makes for an element appends exactly that element's record |
| PathSerializer.SerializeAllAppends | RXPaths/RXPathSerialization.h:29-37 | a run of the public serialize calls, one per element, keeps the data that was already there and appends the encodings of the elements in call order |
| PathCodecProperties.EncodeAppend | RXPaths/RXPathSerialization.h:31-37 | serializing two runs of calls one after the other appends their encodings one after the other |
| PathDeserializer.ScanSound | RXPaths/RXPathSerialization.h:51 | on a clean end the bytes scanned are exactly the encoding of the elements delivered; on an error the bytes before the failing offset are exactly that encoding, and the record at the offset is unreadable |
| PathDeserializer.Decode | RXPaths/RXPathSerialization.h:51 | empty data decodes to no elements; a success means the data is the encoding of the result; a failure carries code 1 and the index of a byte that is not a tag or whose record is truncated |
| PathDeserializer.Observed | RXPaths/RXPathSerialization.h:45-49 | decoding makes no more handler calls than there are records, and every call goes to a handler that is set for that record's type |
| PathDeserializer.ObservedMembers | RXPaths/RXPathSerialization.h:45-49 | an element reaches a handler exactly when the handler for its type is set |
| PathDeserializer.ObservedAppend | RXPaths/RXPathSerialization.h:45-51 | the handler calls for two consecutive runs of records are the calls for the first run followed by those for the second: calls keep decoding order, and none is repeated or reordered |
| PathDeserializer.ObservedExtremes | RXPaths/RXPathSerialization.h:45-49 | with all five handlers set every decoded element is delivered in order; with none set nothing is |
| PathDeserializer.DeserializerWithData | RXPaths/RXPathSerialization.h:43-49 | a new deserializer reads the given data with every handler nil, so nothing it decodes reaches a handler until one is set |
| PathDeserializer.DeserializeWithError | RXPaths/RXPathSerialization.h:51 | returns YES exactly when the reference decoder succeeds, otherwise the reference decoder's error; the handler calls are those for the elements decoded before any error, in order |
| PathCodecProperties.DecodeEncode | RXPaths/RXPathSerialization.h:33-51 | round trip: decoding the encoding of any element sequence succeeds with that sequence, in order and bit-identical |
| PathCodecProperties.DecodeCharacterization | RXPaths/RXPathSerialization.h:51 | data decodes successfully to a sequence exactly when the data is that sequence's encoding |
| PathCodecProperties.SerializeThenDeserialize | RXPaths/RXPathSerialization.h:31-51 | serialize calls made on data that already decodes to some elements give data that decodes to those elements followed by one element per call, in call order |
| PathCodecProperties.DeserializeFreshData | RXPaths/RXPathSerialization.h:31-51 | serializing into empty data and then deserializing all of it gives back exactly the elements serialized |
| PathCodecProperties.UnknownTagStops | RXPaths/RXPathSerialization.h:16-20 | a non-tag byte where a tag is expected stops the scan there: the records before it are delivered, and the error is code 1 with that byte's offset |
| PathCodecProperties.UnknownTagFails | RXPaths/RXPathSerialization.h:51 | for such data `deserializeWithError:` fails with code 1 and the offset of the non-tag byte |
| PathCodecProperties.TruncatedRecordStops | RXPaths/RXPathSerialization.h:16-20 | a record whose payload runs past the end stops the scan at its tag: the records before it are delivered, and the error is code 1 with the tag's offset |
| PathCodecProperties.TruncatedRecordFails | RXPaths/RXPathSerialization.h:51 | for such data `deserializeWithError:` fails with code 1 and the offset of the truncated record's tag |
| PathCodecProperties.DecodeStopsAtFirstError | RXPaths/RXPathSerialization.h:51 | on an error, the elements delivered are exactly the decoding of the valid prefix before the failing offset |

## Left out

- `RXCGPaths/RXCGPathSerialization.h` (`dataWithPath:error:`, `newPathWithData:error:`): adapters over CoreGraphics `CGPathRef`, a library outside this model.
- The value of the `RXPathSerializationErrorDomain` string and of the `RXPathSerializationIndexErrorKey` string: both are `extern` constants whose definitions are not part of this model. The error is modelled as its code and its index.
- The floating-point meaning of coordinates: they are opaque 8-byte patterns. 32-bit platforms, where `CGFloat` is 4 bytes, are not modelled.
- The byte order of coordinates: it does not matter while coordinates are opaque chunks that are written and read back unchanged.
- Foundation plumbing: growing `NSMutableData`, building `NSError` objects, copying blocks, memory management. The `+serializerWithMutableData:` and `+deserializerWithData:` factories are modelled only as constructing a value.
- The handlers are not called as blocks. `DeserializeWithError` returns the in-order sequence of calls a handler set would receive. What a handler does with its arguments is outside the model.
- Re-decoding the same data: decoding is a pure function of the data here, so two decodes of the same bytes give the same calls and the same result. No separate lemma states this.
- Threading and re-entrancy: the codec has neither.

=== FILE: deserializer.dfy ===
/** RXPathDeserializer: scans data front to back, one record at a time, and
    calls the handler for each record's type with that record's points. The
    pure decoder `Scan` is the reference; `DeserializeWithError` is the
    cursor loop that drives the handlers. */
module PathDeserializer {
  import opened Outcomes
  import opened PathElements
  import opened WireFormat

  /** What a scan from some offset produced: the elements of the complete
      records read, in order, and the error that stopped it, if any. */
  datatype Scanned = Scanned(elements: seq<PathElement>, error: Option<PathError>)

  /** Decodes records from `pos` to the end of `data`, stopping at the first
      record that cannot be read. */
  function Scan(data: seq<byte>, pos: nat): Scanned
    requires pos <= |data|
    decreases |data| - pos
  {
    if pos == |data| then Scanned([], None)
    else
      var r := ReadRecord(data, pos);
      if r.Failure? then Scanned([], Some(r.error))
      else
        var rest := Scan(data, r.value.1);
        Scanned([r.value.0] + rest.elements, rest.error)
  }

  /** What a scan result `r` from `pos` means. On a clean end the bytes
      scanned are exactly the encoding of the elements read. On an error, the
      bytes before the failing offset are exactly the encoding of the elements
      read, and the record at that offset is the one that cannot be read. */
  ghost predicate Accounts(data: seq<byte>, pos: nat, r: Scanned)
    requires pos <= |data|
  {
    match r.error
    case None => data[pos..] == Encode(r.elements)
    case Some(err) =>
      && pos <= err.index < |data|
      && data[pos..err.index] == Encode(r.elements)
      && ReadRecord(data, err.index) == Failure(err)
  }

  /** A readable record in front of an accounted-for scan is accounted for. */
  lemma AccountsCons(data: seq<byte>, pos: nat, next: nat, e: PathElement, rest: Scanned)
    requires pos < next <= |data|
    requires data[pos..next] == Record(e)
    requires Accounts(data, next, rest)
    ensures Accounts(data, pos, Scanned([e] + rest.elements, rest.error))
  {
    var end := if rest.error.None? then |data| else rest.error.value.index;
    ConsPrefix(data, pos, next, e, rest.elements, end);
  }

  /** Every scan result is accounted for by the bytes it covered. */
  lemma {:induction false} ScanSound(data: seq<byte>, pos: nat)
    requires pos <= |data|
    ensures Accounts(data, pos, Scan(data, pos))
    decreases |data| - pos
  {
    if pos < |data| {
      ScanStep(data, pos);
      var r := ReadRecord(data, pos);
      if r.Success? {
        ReadRecordSound(data, pos);
        ScanSound(data, r.value.1);
        AccountsCons(data, pos, r.value.1, r.value.0, Scan(data, r.value.1));
      }
    }
  }

  /** One step of the scan: a failing record ends it with that record's
      error; a readable record is followed by the scan from the next one. */
  lemma ScanStep(data: seq<byte>, pos: nat)
    requires pos < |data|
    ensures ReadRecord(data, pos).Failure? ==> Scan(data, pos) == Scanned([], Some(InvalidData(pos)))
    ensures ReadRecord(data, pos).Success? ==>
              var next := ReadRecord(data, pos).value.1;
              Scan(data, pos) == Scanned([ReadRecord(data, pos).value.0] + Scan(data, next).elements,
                                         Scan(data, next).error)
  {
  }

  /** The loop step over a readable record: the element joins the decoded
      prefix and the scan continues from just past the record. */
  lemma ScanAdvance(data: seq<byte>, pos: nat, decoded: seq<PathElement>)
    requires pos < |data|
    requires ReadRecord(data, pos).Success?
    requires Scan(data, 0).elements == decoded + Scan(data, pos).elements
    requires Scan(data, 0).error == Scan(data, pos).error
    ensures var next := ReadRecord(data, pos).value.1;
            && Scan(data, 0).elements == (decoded + [ReadRecord(data, pos).value.0]) + Scan(data, next).elements
            && Scan(data, 0).error == Scan(data, next).error
  {
    ScanStep(data, pos);
    var e, next := ReadRecord(data, pos).value.0, ReadRecord(data, pos).value.1;
    assert decoded + ([e] + Scan(data, next).elements) == (decoded + [e]) + Scan(data, next).elements;
  }

  /** The loop exit on an unreadable record: the whole scan is the decoded
      prefix, stopped by that record's error. */
  lemma ScanFailure(data: seq<byte>, pos: nat, decoded: seq<PathElement>)
    requires pos < |data|
    requires ReadRecord(data, pos).Failure?
    requires Scan(data, 0).elements == decoded + Scan(data, pos).elements
    requires Scan(data, 0).error == Scan(data, pos).error
    ensures Scan(data, 0) == Scanned(decoded, Some(ReadRecord(data, pos).error))
  {
    ScanStep(data, pos);
    assert decoded + [] == decoded;
  }

  /** The whole-data decode `deserializeWithError:` performs, as a value:
      the elements on success, the error otherwise. */
  function Decode(data: seq<byte>): (r: Result<seq<PathElement>, PathError>)
    ensures |data| == 0 ==> r == Success([])
    ensures r.Success? ==> Encode(r.value) == data
    ensures r.Failure? ==>
              && r.error.code == InvalidDataErrorCode
              && r.error.index < |data|
              && (|| TypeOfTag(data[r.error.index]).None?
                  || r.error.index + RecordSize(TypeOfTag(data[r.error.index]).value) > |data|)
  {
    var s := Scan(data, 0);
    ScanSound(data, 0);
    assert data[0..] == data;
    assert s.error.Some? ==> data[s.error.value.index] == data[s.error.value.index..][0];
    match s.error
    case None => Success(s.elements)
    case Some(err) => Failure(err)
  }

  /** Which of the five optional handler properties are set. A handler that
      is not set observes nothing; its record is still consumed. */
  datatype Handlers = Handlers(move: bool, line: bool, quadraticCurve: bool, cubicCurve: bool, close: bool)

  const NoHandlers := Handlers(false, false, false, false, false)
  const AllHandlers := Handlers(true, true, true, true, true)

  function Installed(h: Handlers, t: ElementType): bool
  {
    match t
    case MoveType => h.move
    case LineType => h.line
    case QuadraticCurveType => h.quadraticCurve
    case CubicCurveType => h.cubicCurve
    case CloseType => h.close
  }

  /** The handler calls made while decoding `es`: one per element whose
      handler is set, in decoding order. */
  function Observed(h: Handlers, es: seq<PathElement>): (calls: seq<PathElement>)
    ensures |calls| <= |es|
    ensures forall i :: 0 <= i < |calls| ==> Installed(h, TypeOf(calls[i]))
    decreases |es|
  {
    if |es| == 0 then []
    else
      var init, last := es[..|es| - 1], es[|es| - 1];
      assert es == init + [last];
      Observed(h, init) + (if Installed(h, TypeOf(last)) then [last] else [])
  }

  lemma ObservedSnoc(h: Handlers, es: seq<PathElement>, e: PathElement)
    ensures Observed(h, es + [e]) == Observed(h, es) + (if Installed(h, TypeOf(e)) then [e] else [])
  {
    assert (es + [e])[..|es|] == es;
  }

  /** With every handler set, the calls are the decoded elements themselves;
      with none set, there are no calls. */
  lemma {:induction false} ObservedExtremes(es: seq<PathElement>)
    ensures Observed(AllHandlers, es) == es
    ensures Observed(NoHandlers, es) == []
    decreases |es|
  {
    if |es| > 0 {
      ObservedExtremes(es[..|es| - 1]);
      assert es == es[..|es| - 1] + [es[|es| - 1]];
    }
  }

  /** A call is observed exactly for the decoded elements whose handler is
      set: nothing is invented and nothing with a handler is dropped. */
  lemma {:induction false} ObservedMembers(h: Handlers, es: seq<PathElement>, c: PathElement)
    ensures c in Observed(h, es) <==> c in es && Installed(h, TypeOf(c))
    decreases |es|
  {
    if |es| > 0 {
      var init, last := es[..|es| - 1], es[|es| - 1];
      assert es == init + [last];
      ObservedMembers(h, init, c);
    }
  }

  /** Handler calls for consecutive runs of elements are the calls for each
      run, one after the other: delivery keeps decoding order and neither
      repeats nor reorders a call. */
  lemma {:induction false} ObservedAppend(h: Handlers, a: seq<PathElement>, b: seq<PathElement>)
    ensures Observed(h, a + b) == Observed(h, a) + Observed(h, b)
    decreases |b|
  {
    if |b| == 0 {
      assert a + b == a;
    } else {
      var init, last := b[..|b| - 1], b[|b| - 1];
      assert b == init + [last];
      assert a + b == (a + init) + [last];
      ObservedSnoc(h, a + init, last);
      ObservedSnoc(h, init, last);
      ObservedAppend(h, a, init);
    }
  }

  datatype Deserializer = Deserializer(data: seq<byte>, handlers: Handlers)

  /** A fresh deserializer over `data`: its handler properties start out nil,
      so whatever it decodes reaches no handler until one is set. */
  function DeserializerWithData(data: seq<byte>): (d: Deserializer)
    ensures d.data == data && d.handlers == NoHandlers
    ensures forall es :: Observed(d.handlers, es) == []
  {
    assert forall es :: Observed(NoHandlers, es) == [] by {
      forall es ensures Observed(NoHandlers, es) == [] {
        ObservedExtremes(es);
      }
    }
    Deserializer(data, NoHandlers)
  }

  /** Runs the cursor loop. Returns whether decoding reached the end cleanly,
      the error otherwise, and the handler calls made, in order; calls made
      before an error are not retracted. */
  method DeserializeWithError(d: Deserializer) returns (ok: bool, error: Option<PathError>, calls: seq<PathElement>)
    ensures ok <==> error.None?
    ensures error == Scan(d.data, 0).error
    ensures calls == Observed(d.handlers, Scan(d.data, 0).elements)
    ensures ok <==> Decode(d.data).Success?
    ensures !ok ==> error == Some(Decode(d.data).error)
  {
    var data, h := d.data, d.handlers;
    var pos: nat := 0;
    ghost var decoded: seq<PathElement> := [];
    calls := [];
    while pos < |data|
      invariant pos <= |data|
      invariant Scan(data, 0).elements == decoded + Scan(data, pos).elements
      invariant Scan(data, 0).error == Scan(data, pos).error
      invariant calls == Observed(h, decoded)
      decreases |data| - pos
    {
      var r := ReadRecord(data, pos);
      if r.Failure? {
        ScanFailure(data, pos, decoded);
        return false, Some(r.error), calls;
      }
      var e, next := r.value.0, r.value.1;
      if Installed(h, TypeOf(e)) {
        calls := calls + [e];
      }
      ObservedSnoc(h, decoded, e);
      ScanAdvance(data, pos, decoded);
      decoded := decoded + [e];
      pos := next;
    }
    assert decoded + [] == decoded;
    return true, None, calls;
  }
}

=== FILE: elements.dfy ===
/** The path-element vocabulary shared by the serializer and the deserializer:
    the five element types, their one-byte ASCII tags, the number of points
    each carries, and the order in which a handler receives those points. */
module PathElements {
  import opened Outcomes

  type byte = bv8

  /** Bytes per coordinate. A CGFloat is an IEEE-754 double on the 64-bit
      platforms the codec targets; the model never interprets the bits. */
  const CoordinateWidth: nat := 8

  /** One coordinate as an opaque, fixed-width bit pattern. */
  type Coordinate = c: seq<byte> | |c| == CoordinateWidth
    witness [0, 0, 0, 0, 0, 0, 0, 0]

  /** A CGPoint: x then y. */
  datatype Point = Point(x: Coordinate, y: Coordinate)

  /** Bytes one point occupies on the wire. */
  const PointWidth: nat := 2 * CoordinateWidth

  datatype ElementType = MoveType | LineType | QuadraticCurveType | CubicCurveType | CloseType

  const MoveTag: byte := 0x4D            // 'M'
  const LineTag: byte := 0x4C            // 'L'
  const QuadraticCurveTag: byte := 0x51  // 'Q'
  const CubicCurveTag: byte := 0x43      // 'C'
  const CloseTag: byte := 0x5A           // 'Z'

  /** The tag byte that opens a record of type `t`. */
  function Tag(t: ElementType): byte
  {
    match t
    case MoveType => MoveTag
    case LineType => LineTag
    case QuadraticCurveType => QuadraticCurveTag
    case CubicCurveType => CubicCurveTag
    case CloseType => CloseTag
  }

  /** The element type a tag byte announces, if it is one of the five tags.
      Its contract makes the five tags pairwise distinct: a byte names at most
      one type, and it names exactly the type whose tag it is. */
  function TypeOfTag(b: byte): (r: Option<ElementType>)
    ensures r.Some? ==> Tag(r.value) == b
    ensures r.None? <==> b !in {MoveTag, LineTag, QuadraticCurveTag, CubicCurveTag, CloseTag}
  {
    if b == MoveTag then Some(MoveType)
    else if b == LineTag then Some(LineType)
    else if b == QuadraticCurveTag then Some(QuadraticCurveType)
    else if b == CubicCurveTag then Some(CubicCurveType)
    else if b == CloseTag then Some(CloseType)
    else None
  }

  /** Points carried by an element of type `t`, fixed by the handler signatures. */
  function PointCount(t: ElementType): nat
  {
    match t
    case MoveType => 1
    case LineType => 1
    case QuadraticCurveType => 2
    case CubicCurveType => 3
    case CloseType => 0
  }

  /** Payload bytes after the tag of a record of type `t`. */
  function PayloadSize(t: ElementType): nat
  {
    PointCount(t) * PointWidth
  }

  /** One drawing operation. Constructor fields carry the names the
      deserializer's handler parameters give them. */
  datatype PathElement =
    | Move(point: Point)
    | Line(point: Point)
    | QuadraticCurve(controlPoint: Point, endPoint: Point)
    | CubicCurve(controlPoint1: Point, controlPoint2: Point, endPoint: Point)
    | Close

  function TypeOf(e: PathElement): ElementType
  {
    match e
    case Move(_) => MoveType
    case Line(_) => LineType
    case QuadraticCurve(_, _) => QuadraticCurveType
    case CubicCurve(_, _, _) => CubicCurveType
    case Close => CloseType
  }

  /** Builds the element of type `t` from its points given in handler order. */
  function MakeElement(t: ElementType, pts: seq<Point>): (e: PathElement)
    requires |pts| == PointCount(t)
    ensures TypeOf(e) == t
  {
    match t
    case MoveType => Move(pts[0])
    case LineType => Line(pts[0])
    case QuadraticCurveType => QuadraticCurve(pts[0], pts[1])
    case CubicCurveType => CubicCurve(pts[0], pts[1], pts[2])
    case CloseType => Close
  }

  /** The points of `e` in handler order: control point(s) first, end point
      last. There are as many as its type prescribes, and they determine the
      element given its type. */
  function Points(e: PathElement): (pts: seq<Point>)
    ensures |pts| == PointCount(TypeOf(e))
    ensures MakeElement(TypeOf(e), pts) == e
  {
    match e
    case Move(p) => [p]
    case Line(p) => [p]
    case QuadraticCurve(c, p) => [c, p]
    case CubicCurve(c1, c2, p) => [c1, c2, p]
    case Close => []
  }

  /** Points are exactly what MakeElement consumed. */
  lemma PointsOfMakeElement(t: ElementType, pts: seq<Point>)
    requires |pts| == PointCount(t)
    ensures Points(MakeElement(t, pts)) == pts
  {
    match t
    case MoveType =>
    case LineType =>
    case QuadraticCurveType =>
    case CubicCurveType =>
    case CloseType => assert pts == [];
  }

  /** The arguments the uniform element handler receives for `e`: its tag
      byte and its points in handler order. */
  function ElementHandlerArguments(e: PathElement): (args: (byte, seq<Point>))
    ensures TypeOfTag(args.0) == Some(TypeOf(e))
    ensures |args.1| == PointCount(TypeOf(e))
  {
    (Tag(TypeOf(e)), Points(e))
  }

  /** Reads a uniform handler call back as an element; fails on a byte that
      is not a tag or a point array of the wrong length. */
  function ElementFromHandlerArguments(tag: byte, pts: seq<Point>): (r: Option<PathElement>)
    ensures r.Some? <==> TypeOfTag(tag).Some? && |pts| == PointCount(TypeOfTag(tag).value)
    ensures r.Some? ==> Tag(TypeOf(r.value)) == tag
  {
    match TypeOfTag(tag)
    case None => None
    case Some(t) => if |pts| == PointCount(t) then Some(MakeElement(t, pts)) else None
  }

  /** The uniform handler and the per-type handlers carry the same
      information: each element is recovered from its uniform arguments, and
      well-formed uniform arguments are recovered from their element. */
  lemma HandlerArgumentsRoundTrip(e: PathElement, tag: byte, pts: seq<Point>)
    ensures ElementFromHandlerArguments(ElementHandlerArguments(e).0, ElementHandlerArguments(e).1) == Some(e)
    ensures ElementFromHandlerArguments(tag, pts).Some? ==>
              ElementHandlerArguments(ElementFromHandlerArguments(tag, pts).value) == (tag, pts)
  {
    if ElementFromHandlerArguments(tag, pts).Some? {
      PointsOfMakeElement(TypeOfTag(tag).value, pts);
    }
  }
}

=== FILE: outcomes.dfy ===
/** The two outcome types the codec needs: `Option` for a byte that may or
    may not be a tag, and `Result` for a read or decode that either yields a
    value or stops with the error `deserializeWithError:` reports. */
module Outcomes {

  datatype Option<T> = None | Some(value: T)

  datatype Result<R, E> = Success(value: R) | Failure(error: E)
}

=== FILE: properties.dfy ===
/** Properties relating the serializer and the deserializer: the exact round
    trip, the characterization of well-formed data, and where decoding stops
    on malformed data. */
module PathCodecProperties {
  import opened Outcomes
  import opened PathElements
  import opened WireFormat
  import opened PathSerializer
  import opened PathDeserializer

  /** The five tags are pairwise distinct and each reads back as its own type. */
  lemma TagsDistinct(t1: ElementType, t2: ElementType)
    ensures TypeOfTag(Tag(t1)) == Some(t1)
    ensures Tag(t1) == Tag(t2) ==> t1 == t2
  {
  }

  /** Serializing one sequence of calls and then another appends their
      encodings one after the other. */
  lemma {:induction false} EncodeAppend(a: seq<PathElement>, b: seq<PathElement>)
    ensures Encode(a + b) == Encode(a) + Encode(b)
    decreases |a|
  {
    if |a| > 0 {
      assert (a + b)[1..] == a[1..] + b;
      assert (a + b)[0] == a[0];
      EncodeAppend(a[1..], b);
      assert Encode(a + b) == Record(a[0]) + Encode(a[1..] + b);
    } else {
      assert a + b == b;
    }
  }

  /** The two halves of a concatenation found in `data` at `pos`. */
  lemma SliceOfConcat(data: seq<byte>, pos: nat, mid: nat, end: nat, x: seq<byte>, y: seq<byte>)
    requires mid == pos + |x| && end == mid + |y| <= |data|
    requires data[pos..end] == x + y
    ensures data[pos..mid] == x
    ensures data[mid..end] == y
  {
    assert data[pos..mid] == (x + y)[..|x|];
    assert data[mid..end] == (x + y)[|x|..];
  }

  /** Scanning over an encoded run of records, laid down between `pos` and
      `end`, yields exactly those elements and then continues from `end`. */
  lemma {:induction false} ScanEncoded(data: seq<byte>, pos: nat, end: nat, es: seq<PathElement>)
    requires pos <= end <= |data|
    requires data[pos..end] == Encode(es)
    ensures Scan(data, pos).elements == es + Scan(data, end).elements
    ensures Scan(data, pos).error == Scan(data, end).error
    decreases |es|
  {
    if |es| > 0 {
      var next := ScanFirstRecord(data, pos, end, es);
      ScanEncoded(data, next, end, es[1..]);
      ChainScans(Scan(data, pos), Scan(data, next), Scan(data, end), es[0], es[1..], es);
    } else {
      assert pos == end;
      assert es + Scan(data, pos).elements == Scan(data, pos).elements;
    }
  }

  /** The first record of an encoded run is scanned as the run's first
      element; the rest of the run starts at the returned offset. */
  lemma ScanFirstRecord(data: seq<byte>, pos: nat, end: nat, es: seq<PathElement>) returns (next: nat)
    requires |es| > 0
    requires pos <= end <= |data|
    requires data[pos..end] == Encode(es)
    ensures pos < next <= end
    ensures data[next..end] == Encode(es[1..])
    ensures Scan(data, pos) == Scanned([es[0]] + Scan(data, next).elements, Scan(data, next).error)
  {
    var e, tail := es[0], es[1..];
    var rec, rest := Record(e), Encode(tail);
    assert Encode(es) == rec + rest;
    next := pos + |rec|;
    SliceOfConcat(data, pos, next, end, rec, rest);
    ScanOverRecord(data, pos, next, e);
  }

  /** A record laid down at `pos` is scanned as its element, followed by
      whatever the scan from just past it yields. */
  lemma ScanOverRecord(data: seq<byte>, pos: nat, next: nat, e: PathElement)
    requires next == pos + |Record(e)| <= |data|
    requires data[pos..next] == Record(e)
    ensures Scan(data, pos) == Scanned([e] + Scan(data, next).elements, Scan(data, next).error)
  {
    ReadRecordOfRecord(data, pos, next, e);
    ScanStep(data, pos);
  }

  /** One record's element followed by a run of records' elements. */
  lemma ChainScans(here: Scanned, there: Scanned, rest: Scanned,
                   e: PathElement, tail: seq<PathElement>, es: seq<PathElement>)
    requires here == Scanned([e] + there.elements, there.error)
    requires there.elements == tail + rest.elements && there.error == rest.error
    requires |es| > 0 && e == es[0] && tail == es[1..]
    ensures here.elements == es + rest.elements && here.error == rest.error
  {
    assert es == [e] + tail;
    assert [e] + (tail + rest.elements) == ([e] + tail) + rest.elements;
  }

  /** Round trip: decoding the encoding of any element sequence succeeds with
      that very sequence, bit for bit and in order. */
  lemma DecodeEncode(es: seq<PathElement>)
    ensures Decode(Encode(es)) == Success(es)
  {
    var data := Encode(es);
    assert data[0..|data|] == data;
    ScanEncoded(data, 0, |data|, es);
    assert es + [] == es;
  }

  /** Data decodes successfully to `es` exactly when it is the encoding of
      `es`: decoding is the inverse of encoding and accepts nothing else. */
  lemma DecodeCharacterization(data: seq<byte>, es: seq<PathElement>)
    ensures Decode(data) == Success(es) <==> data == Encode(es)
  {
    if data == Encode(es) {
      DecodeEncode(es);
    }
  }

  /** The serializer's round trip as a producer drives it: serialize calls
      made on data that already decodes to `prior` give data that decodes to
      `prior` followed by one element per call, in call order, with
      bit-identical points. */
  lemma SerializeThenDeserialize(s: Serializer, prior: seq<PathElement>, es: seq<PathElement>)
    requires Decode(s.data) == Success(prior)
    ensures Decode(SerializeAll(s, es).data) == Success(prior + es)
  {
    DecodeCharacterization(s.data, prior);
    SerializeAllAppends(s, es);
    EncodeAppend(prior, es);
    DecodeEncode(prior + es);
  }

  /** Serializing into fresh, empty data and deserializing all of it gives
      back exactly the elements serialized. */
  lemma DeserializeFreshData(es: seq<PathElement>)
    ensures Decode(SerializeAll(SerializerWithMutableData([]), es).data) == Success(es)
  {
    SerializeAllAppends(SerializerWithMutableData([]), es);
    assert SerializeAll(SerializerWithMutableData([]), es).data == [] + Encode(es) == Encode(es);
    DecodeEncode(es);
  }

  /** A byte that is not a tag, found where a tag is expected after any run
      of valid records, stops decoding there: the records before it are
      delivered and the error carries the invalid-data code and that byte's
      offset. */
  lemma UnknownTagStops(es: seq<PathElement>, b: byte, rest: seq<byte>, data: seq<byte>)
    requires TypeOfTag(b).None?
    requires data == Encode(es) + [b] + rest
    ensures Scan(data, 0) == Scanned(es, Some(InvalidData(|Encode(es)|)))
  {
    var i := |Encode(es)|;
    assert data[0..i] == Encode(es);
    ScanEncoded(data, 0, i, es);
    assert data[i] == b;
    ScanStep(data, i);
  }

  /** The same stop as `deserializeWithError:` reports it: NO, with the
      invalid-data code and the offset just past the valid records. */
  lemma UnknownTagFails(es: seq<PathElement>, b: byte, rest: seq<byte>, data: seq<byte>)
    requires TypeOfTag(b).None?
    requires data == Encode(es) + [b] + rest
    ensures Decode(data) == Failure(PathError(InvalidDataErrorCode, |Encode(es)|))
  {
    UnknownTagStops(es, b, rest, data);
  }

  /** A record whose payload runs past the end of the data stops decoding at
      its tag: the records before it are delivered and the error carries the
      invalid-data code and the tag's offset. */
  lemma TruncatedRecordStops(es: seq<PathElement>, t: ElementType, partial: seq<byte>, data: seq<byte>)
    requires |partial| < PayloadSize(t)
    requires data == Encode(es) + [Tag(t)] + partial
    ensures Scan(data, 0) == Scanned(es, Some(InvalidData(|Encode(es)|)))
  {
    var i := |Encode(es)|;
    assert data[0..i] == Encode(es);
    ScanEncoded(data, 0, i, es);
    assert data[i] == Tag(t);
    TagsDistinct(t, t);
    ScanStep(data, i);
  }

  /** The same stop as `deserializeWithError:` reports it: NO, with the
      invalid-data code and the offset just past the valid records. */
  lemma TruncatedRecordFails(es: seq<PathElement>, t: ElementType, partial: seq<byte>, data: seq<byte>)
    requires |partial| < PayloadSize(t)
    requires data == Encode(es) + [Tag(t)] + partial
    ensures Decode(data) == Failure(PathError(InvalidDataErrorCode, |Encode(es)|))
  {
    TruncatedRecordStops(es, t, partial, data);
  }

  /** Fail-fast: on an error, the elements delivered are exactly those of the
      valid prefix before the failing offset. */
  lemma DecodeStopsAtFirstError(data: seq<byte>)
    requires Decode(data).Failure?
    ensures Decode(data[..Decode(data).error.index]) == Success(Scan(data, 0).elements)
  {
    var i := Decode(data).error.index;
    ScanSound(data, 0);
    var es := Scan(data, 0).elements;
    assert data[0..i] == data[..i];
    DecodeCharacterization(data[..i], es);
  }
}

=== FILE: serializer.dfy ===
/** RXPathSerializer: appends one record per call to caller-owned data.
    The mutable data is modelled as a value; each call returns the serializer
    whose data is the old data with the record appended. */
module PathSerializer {
  import opened Outcomes
  import opened PathElements
  import opened WireFormat

  datatype Serializer = Serializer(data: seq<byte>)

  /** A serializer over `data`, which may already hold bytes. */
  function SerializerWithMutableData(data: seq<byte>): Serializer
  {
    Serializer(data)
  }

  function Append(s: Serializer, e: PathElement): Serializer
  {
    Serializer(s.data + Record(e))
  }

  /** Appending one record leaves the earlier bytes alone, and the new bytes
      read back as exactly that element, ending at the new end of data. */
  lemma AppendReadsBack(s: Serializer, e: PathElement)
    ensures Append(s, e).data[..|s.data|] == s.data
    ensures |Append(s, e).data| == |s.data| + RecordSize(TypeOf(e))
    ensures ReadRecord(Append(s, e).data, |s.data|) == Success((e, |Append(s, e).data|))
  {
    var d := Append(s, e).data;
    assert d[|s.data|..|d|] == Record(e);
    ReadRecordOfRecord(d, |s.data|, |d|, e);
  }

  function SerializeMoveToPoint(s: Serializer, point: Point): (s': Serializer)
    ensures |s'.data| == |s.data| + 1 + PointWidth
    ensures s'.data[..|s.data|] == s.data
    ensures ReadRecord(s'.data, |s.data|) == Success((Move(point), |s'.data|))
  {
    AppendReadsBack(s, Move(point));
    Append(s, Move(point))
  }

  function SerializeLineToPoint(s: Serializer, point: Point): (s': Serializer)
    ensures |s'.data| == |s.data| + 1 + PointWidth
    ensures s'.data[..|s.data|] == s.data
    ensures ReadRecord(s'.data, |s.data|) == Success((Line(point), |s'.data|))
  {
    AppendReadsBack(s, Line(point));
    Append(s, Line(point))
  }

  /** The end point comes first in the call; the record reads back with the
      control point in the handler's first slot and the end point in its last. */
  function SerializeQuadraticCurveToPoint(s: Serializer, point: Point, controlPoint: Point): (s': Serializer)
    ensures |s'.data| == |s.data| + 1 + 2 * PointWidth
    ensures s'.data[..|s.data|] == s.data
    ensures ReadRecord(s'.data, |s.data|) == Success((QuadraticCurve(controlPoint, point), |s'.data|))
  {
    AppendReadsBack(s, QuadraticCurve(controlPoint, point));
    Append(s, QuadraticCurve(controlPoint, point))
  }

  /** As for the quadratic curve: end point first in the call, last in the
      handler. */
  function SerializeCubicCurveToPoint(s: Serializer, point: Point, controlPoint1: Point, controlPoint2: Point): (s': Serializer)
    ensures |s'.data| == |s.data| + 1 + 3 * PointWidth
    ensures s'.data[..|s.data|] == s.data
    ensures ReadRecord(s'.data, |s.data|) == Success((CubicCurve(controlPoint1, controlPoint2, point), |s'.data|))
  {
    AppendReadsBack(s, CubicCurve(controlPoint1, controlPoint2, point));
    Append(s, CubicCurve(controlPoint1, controlPoint2, point))
  }

  function SerializeCloseSubpath(s: Serializer): (s': Serializer)
    ensures |s'.data| == |s.data| + 1
    ensures s'.data[..|s.data|] == s.data
    ensures ReadRecord(s'.data, |s.data|) == Success((Close, |s'.data|))
  {
    AppendReadsBack(s, Close);
    Append(s, Close)
  }

  /** The serialize call a producer makes for `e`, with the end point passed
      first for curves. */
  function SerializeElement(s: Serializer, e: PathElement): (s': Serializer)
    ensures s'.data == s.data + Record(e)
  {
    match e
    case Move(p) => SerializeMoveToPoint(s, p)
    case Line(p) => SerializeLineToPoint(s, p)
    case QuadraticCurve(c, p) => SerializeQuadraticCurveToPoint(s, p, c)
    case CubicCurve(c1, c2, p) => SerializeCubicCurveToPoint(s, p, c1, c2)
    case Close => SerializeCloseSubpath(s)
  }

  /** One serialize call per element, in order: the calls a producer makes
      to write the path `es`. */
  function SerializeAll(s: Serializer, es: seq<PathElement>): Serializer
    decreases |es|
  {
    if |es| == 0 then s else SerializeAll(SerializeElement(s, es[0]), es[1..])
  }

  /** A run of serialize calls keeps the bytes that were already there, first,
      and appends exactly the encoding of the elements, in call order. */
  lemma {:induction false} SerializeAllAppends(s: Serializer, es: seq<PathElement>)
    ensures SerializeAll(s, es).data == s.data + Encode(es)
    decreases |es|
  {
    if |es| > 0 {
      var s1 := SerializeElement(s, es[0]);
      SerializeAllAppends(s1, es[1..]);
      EncodeCons(es[0], es[1..]);
      assert [es[0]] + es[1..] == es;
    }
  }
}

=== FILE: wire_format.dfy ===
/** The byte layout both sides agree on: a stream is a concatenation of
    records, and a record is one tag byte followed by the element's points,
    each point its x then its y coordinate as fixed-width raw bytes. There is
    no header, length prefix or checksum. */
module WireFormat {
  import opened Outcomes
  import opened PathElements

  /** The one error code the deserializer reports. */
  const InvalidDataErrorCode: int := 1

  /** The NSError the deserializer hands back: its code, and the byte offset
      stored under the index key. */
  datatype PathError = PathError(code: int, index: nat)

  /** The invalid-data error for the record whose tag sits at `index`. */
  function InvalidData(index: nat): PathError
  {
    PathError(InvalidDataErrorCode, index)
  }

  /** A point on the wire: its x coordinate, then its y coordinate. */
  function PointBytes(p: Point): (bs: seq<byte>)
    ensures |bs| == PointWidth
    ensures bs[..CoordinateWidth] == p.x && bs[CoordinateWidth..] == p.y
  {
    p.x + p.y
  }

  /** Consecutive points, each in its own 16-byte slot, in order. */
  function PointsBytes(pts: seq<Point>): (bs: seq<byte>)
    ensures |bs| == |pts| * PointWidth
  {
    if |pts| == 0 then [] else PointBytes(pts[0]) + PointsBytes(pts[1..])
  }

  function RecordSize(t: ElementType): nat
  {
    1 + PayloadSize(t)
  }

  /** The record one serialize call appends for `e`. */
  function Record(e: PathElement): (bs: seq<byte>)
    ensures |bs| == RecordSize(TypeOf(e))
    ensures bs[0] == Tag(TypeOf(e))
  {
    [Tag(TypeOf(e))] + PointsBytes(Points(e))
  }

  /** The bytes a sequence of serialize calls appends, in call order. */
  function Encode(es: seq<PathElement>): seq<byte>
  {
    if |es| == 0 then [] else Record(es[0]) + Encode(es[1..])
  }

  lemma EncodeCons(e: PathElement, es: seq<PathElement>)
    ensures Encode([e] + es) == Record(e) + Encode(es)
  {
    assert ([e] + es)[1..] == es;
  }

  /** A record followed by an encoding is the encoding of the longer sequence. */
  lemma ConsPrefix(data: seq<byte>, pos: nat, next: nat, e: PathElement, es: seq<PathElement>, end: nat)
    requires pos <= next <= end <= |data|
    requires data[pos..next] == Record(e)
    requires data[next..end] == Encode(es)
    ensures data[pos..end] == Encode([e] + es)
  {
    EncodeCons(e, es);
    assert data[pos..end] == data[pos..next] + data[next..end];
  }

  /** Reads the point whose bytes start at `pos`. */
  function ReadPoint(data: seq<byte>, pos: nat): (p: Point)
    requires pos + PointWidth <= |data|
    ensures PointBytes(p) == data[pos..pos + PointWidth]
  {
    Point(data[pos..pos + CoordinateWidth], data[pos + CoordinateWidth..pos + PointWidth])
  }

  /** A written point reads back as itself, bit for bit. */
  lemma PointRoundTrip(p: Point)
    ensures ReadPoint(PointBytes(p), 0) == p
  {
  }

  /** A single point's bytes are its own 16-byte image. */
  lemma PointsBytesSingle(p: Point)
    ensures PointsBytes([p]) == PointBytes(p)
  {
  }

  /** The bytes of two runs of points are the first run's bytes followed by
      the second's, so each point sits in its own 16-byte slot, in order. */
  lemma {:induction false} PointsBytesAppend(a: seq<Point>, b: seq<Point>)
    ensures PointsBytes(a + b) == PointsBytes(a) + PointsBytes(b)
    decreases |a|
  {
    if |a| > 0 {
      assert (a + b)[0] == a[0];
      assert (a + b)[1..] == a[1..] + b;
      PointsBytesAppend(a[1..], b);
    } else {
      assert a + b == b;
    }
  }

  /** Reads `n` consecutive points starting at `pos`; they are exactly the
      points whose bytes occupy that range. */
  function ReadPoints(data: seq<byte>, pos: nat, n: nat): (pts: seq<Point>)
    requires pos + n * PointWidth <= |data|
    ensures |pts| == n
    ensures PointsBytes(pts) == data[pos..pos + n * PointWidth]
    decreases n
  {
    if n == 0 then []
    else
      var p := ReadPoint(data, pos);
      var rest := ReadPoints(data, pos + PointWidth, n - 1);
      assert data[pos..pos + n * PointWidth]
          == data[pos..pos + PointWidth] + data[pos + PointWidth..pos + n * PointWidth];
      [p] + rest
  }

  /** Equal-length point sequences with the same bytes are the same points,
      so reading back never loses or reinterprets a bit. */
  lemma {:induction false} PointsBytesInjective(a: seq<Point>, b: seq<Point>)
    requires |a| == |b|
    requires PointsBytes(a) == PointsBytes(b)
    ensures a == b
    decreases |a|
  {
    if |a| > 0 {
      var ba, bb := PointsBytes(a), PointsBytes(b);
      assert ba[..PointWidth] == PointBytes(a[0]);
      assert bb[..PointWidth] == PointBytes(b[0]);
      assert a[0].x == PointBytes(a[0])[..CoordinateWidth] == PointBytes(b[0])[..CoordinateWidth] == b[0].x;
      assert a[0].y == PointBytes(a[0])[CoordinateWidth..] == PointBytes(b[0])[CoordinateWidth..] == b[0].y;
      assert ba[PointWidth..] == PointsBytes(a[1..]);
      assert bb[PointWidth..] == PointsBytes(b[1..]);
      PointsBytesInjective(a[1..], b[1..]);
      assert a == [a[0]] + a[1..];
      assert b == [b[0]] + b[1..];
    }
  }

  /** Reads the record whose tag sits at `pos`. It succeeds exactly when the
      byte there is one of the five tags and the whole payload that tag
      announces is present; the record it reads is then the one occupying
      those bytes. Otherwise it fails with the invalid-data code and the tag's
      offset. */
  function ReadRecord(data: seq<byte>, pos: nat): (r: Result<(PathElement, nat), PathError>)
    requires pos < |data|
    ensures r.Success? <==>
              TypeOfTag(data[pos]).Some? && pos + RecordSize(TypeOfTag(data[pos]).value) <= |data|
    ensures r.Success? ==> r.value.1 == pos + RecordSize(TypeOf(r.value.0)) <= |data|
    ensures r.Failure? ==> r.error == InvalidData(pos)
  {
    match TypeOfTag(data[pos])
    case None => Failure(InvalidData(pos))
    case Some(t) =>
      if |data| - (pos + 1) < PayloadSize(t) then Failure(InvalidData(pos))
      else
        Success((MakeElement(t, ReadPoints(data, pos + 1, PointCount(t))), pos + RecordSize(t)))
  }

  /** A record that reads successfully is the one occupying the bytes read. */
  lemma ReadRecordSound(data: seq<byte>, pos: nat)
    requires pos < |data|
    requires ReadRecord(data, pos).Success?
    ensures data[pos..ReadRecord(data, pos).value.1] == Record(ReadRecord(data, pos).value.0)
  {
    var t := TypeOfTag(data[pos]).value;
    var n := PointCount(t);
    var next := pos + RecordSize(t);
    var pts := ReadPoints(data, pos + 1, n);
    var e := MakeElement(t, pts);
    assert ReadRecord(data, pos) == Success((e, next));
    PointsOfMakeElement(t, pts);
    assert Record(e) == [Tag(t)] + PointsBytes(pts);
    assert data[pos + 1..next] == PointsBytes(pts);
    SplitHead(data, pos, next);
  }

  /** A range of bytes is its first byte followed by the rest. */
  lemma SplitHead(data: seq<byte>, pos: nat, next: nat)
    requires pos < next <= |data|
    ensures data[pos..next] == [data[pos]] + data[pos + 1..next]
  {
  }

  /** A record laid down at `pos` reads back as the same element, and the
      cursor lands just past it. */
  lemma ReadRecordOfRecord(data: seq<byte>, pos: nat, next: nat, e: PathElement)
    requires next == pos + |Record(e)| <= |data|
    requires data[pos..next] == Record(e)
    ensures ReadRecord(data, pos) == Success((e, next))
  {
    var rec := Record(e);
    var t := TypeOf(e);
    assert data[pos] == rec[0] == Tag(t);
    assert TypeOfTag(data[pos]) == Some(t);
    var r := ReadRecord(data, pos);
    assert r.Success?;
    ReadRecordSound(data, pos);
    var e', next' := r.value.0, r.value.1;
    assert next' == next;
    assert TypeOf(e') == t;
    var pts, pts' := Points(e), Points(e');
    assert PointsBytes(pts) == rec[1..];
    assert PointsBytes(pts') == Record(e')[1..];
    PointsBytesInjective(pts, pts');
  }
}
